=== FILE: README.md ===
# Credential persistence of bispham-station, in Dafny

This project models the credential-persistence core of the bispham-station
back end, together with the account and login decisions built on it:

- the **remember-me token vault** (`PersistentStorage`, module `TokenVault`):
  the `remember_tokens` table as a sequence of rows `(Lookup, Token, UserId,
  Expires)`, issuance of a random lookup id plus a random secret of which only
  the bcrypt digest is stored, the two-phase check (select by lookup id, reject
  if expired, then verify the secret), and the sweep that deletes rows with
  `Expires < now`;
- the **session store** (`SessionStorage`, module `SessionStore`) used by the
  session middleware: the `sessions` table as a map from session id to
  expiry and data, with `get`, the `set` upsert and its expiry derivation,
  `destroy`, and the sweep;
- the **sweep timer** both stores share (module `SweepTimer`): the clear closure
  runs once at start-up and then on every interval, and the first datastore
  error clears the interval for good;
- the **account logic** of `UserController` (module `Users`): registration with
  its duplicate-key classification, the default user, lookup by id and
  password login;
- the **`/auth` handlers** of `UserRoutes` (module `UserRoutes`): `newAccount`,
  `login`, `hello` and `logout` as pure functions of the backend state, the
  session, the request body and an oracle.

Everything is a pure function over immutable values. The clock is an integer
number of epoch seconds passed in. Random draws (`uid-safe` ids, bcrypt
salts) are parameters. What the datastore reports (an insert id, an error)
is a parameter as well. bcrypt is a `Hashing.Hasher`: a pair of functions
`hash(salt, plain)` and `verify(plain, digest)`. The two facts the code relies
on are predicates, not theorems. `Sound` says a digest verifies against its
own secret. `TamperResistant` says no other secret verifies. Each lemma that
needs one takes it as a hypothesis, and `Hashing.Reference` shows both can
hold together. The read operations (`TokenVault.ValidateToken`, `SessionStore.Get`,
`Users.GetUserById`, `Users.ValidateLogin`) return only an answer, never a
table, so they cannot modify what they read. Supporting modules: `Outcomes` (optional values and promise
outcomes), `Seqs` (order-preserving `Filter`, the shape of `SELECT … WHERE` and
`DELETE … WHERE`), `Strings` (`includes`).

Three points where the code departs from how a remember-me scheme of this
kind is usually specified; the model follows the code:

- Expiry is compared with a strict `<` in `validateToken`, `get` and both
  sweeps. A row whose expiry equals the current second is still valid and
  survives the sweep; treating `expiresAt <= now` as expired would reject it.
- Lookup ids are meant to be unique, but the `remember_tokens` table has no
  unique constraint on `Lookup`, and `validateToken` reads only the first row
  returned. The model keeps the table as a sequence, takes the first match in
  insertion order, and states uniqueness as a hypothesis
  (`TokenVault.UniqueLookups`) where it matters.
  `TokenVault.DuplicateLookupSweepRevealsRow` shows what goes wrong without it.
- Revoking a token by lookup id, rotating tokens on use, and a
  `"<lookup> <secret>"` cookie format are absent from the code and are not
  modelled.

## Model

| member | source | states |
|---|---|---|
| `TokenVault.SetToken` | back/src/lib/persistentStorage.ts:78-93 | issuing appends exactly one row at the end and leaves every earlier row as it was; the new row has the drawn lookup id, the owner, and the digest of the secret (which verifies against it under a sound hasher); the resolved triple is `(lookup, secret, EXPIRE_TIME)`; the TTL is 14 days in seconds and equals the stored expiry minus the issue time |
| `TokenVault.ValidateToken` | back/src/lib/persistentStorage.ts:50-76 | an owner is returned only when some row with that lookup id is live and the secret verifies against its digest, and that row is the owner's; an unknown lookup id yields `None` |
| `TokenVault.ValidateTokenFirstMatch` | back/src/lib/persistentStorage.ts:58-72 | the first row with the lookup id decides: accepted exactly when it is not expired (`Expires == now` still passes) and the secret verifies, and then its owner is returned; an expired first row rejects whatever the secret |
| `TokenVault.ValidateTokenPresentLookup` | back/src/lib/persistentStorage.ts:53-72 | every lookup id present in the table has a first row, and that row decides the answer as above, so with the unknown-lookup clause every lookup id is covered |
| `TokenVault.SetThenValidate` | back/src/lib/persistentStorage.ts:50-91 | round trip: with a lookup id not yet in the table, the issued pair validates to its owner at every instant up to and including the stored expiry |
| `TokenVault.SetThenValidateExpired` | back/src/lib/persistentStorage.ts:62-64 | after the stored expiry the issued pair is rejected even with the right secret |
| `TokenVault.TamperedSecretRejected` | back/src/lib/persistentStorage.ts:66-72 | under tamper resistance, any other secret presented with a freshly issued lookup id is rejected at every instant |
| `TokenVault.SetTokenKeepsLookupsUnique` | back/src/lib/persistentStorage.ts:81-89 | issuing with a lookup id not yet in the table keeps lookup ids unique |
| `TokenVault.ClearExpired` | back/src/lib/persistentStorage.ts:35-38 | the sweep keeps exactly the rows with `Expires >= now` and never grows the table |
| `TokenVault.ClearExpiredKeepsOrder` | back/src/lib/persistentStorage.ts:36 | the sweep preserves the order of the surviving rows (it distributes over concatenation) |
| `TokenVault.ClearExpiredIdempotent` | back/src/lib/persistentStorage.ts:36-38 | a second sweep at the same instant removes nothing |
| `TokenVault.ClearExpiredKeepsAccepted` | back/src/lib/persistentStorage.ts:36-72 | a sweep at any instant up to `now` never removes a token accepted at `now`; the answer and owner are unchanged |
| `TokenVault.ClearExpiredInvisibleWhenUnique` | back/src/lib/persistentStorage.ts:36-72 | with unique lookup ids, a sweep changes no validation answer at the same instant |
| `TokenVault.DuplicateLookupSweepRevealsRow` | back/src/lib/persistentStorage.ts:24 | without a unique lookup column, an expired first row can hide a live second row with the same lookup id; the sweep then turns a rejection into an acceptance |
| `TokenVault.SweeperKeepsAccepted` | back/src/lib/persistentStorage.ts:34-48 | however many times the token sweeper fires (until it fails), no firing at or before `now` revokes a token accepted at `now` |
| `SweepTimer.Run` | back/src/lib/sessionStorage.ts:52-62 | a cancelled timer changes nothing; the timer ends cancelled exactly when some firing failed; with no failure, every firing has cleared the table in order |
| `SweepTimer.FailureStopsSweeping` | back/src/lib/persistentStorage.ts:38-47 | the first failed firing cancels the timer, and the table stays as the earlier successful firings left it whatever firings follow |
| `SessionStore.ExpirySeconds` | back/src/lib/sessionStorage.ts:87-99 | the stored expiry is the cookie's expiry instant (`_expires` when present, else `expires`, else the epoch) converted from milliseconds to the whole second containing it |
| `SessionStore.Get` | back/src/lib/sessionStorage.ts:65-84 | a session is returned exactly when its row exists and has not expired (`Expires == now` is still valid), and it is the stored one; reading deletes nothing |
| `SessionStore.Set` | back/src/lib/sessionStorage.ts:86-107 | the upsert leaves exactly one row for the id, holding the new data and the expiry derived from its cookie, and leaves every other row unchanged |
| `SessionStore.Destroy` | back/src/lib/sessionStorage.ts:109-117 | removes the row for the id and leaves every other row unchanged |
| `SessionStore.ClearExpired` | back/src/lib/sessionStorage.ts:50-59 | the sweep keeps exactly the rows with `Expires >= now`, unchanged |
| `SessionStore.SetThenGet` | back/src/lib/sessionStorage.ts:73-103 | round trip: a session that was set is read back at every instant up to its expiry second |
| `SessionStore.SetThenGetExpired` | back/src/lib/sessionStorage.ts:78-79 | after its expiry second a session reads as absent while its row is still in the table |
| `SessionStore.SetTwiceKeepsLast` | back/src/lib/sessionStorage.ts:101-103 | setting the same id twice leaves the same store as setting it once with the second session |
| `SessionStore.SetLeavesOthers` | back/src/lib/sessionStorage.ts:101-103 | setting one id changes no answer of `get` for any other id |
| `SessionStore.DestroyThenGet` | back/src/lib/sessionStorage.ts:109-117 | after `destroy` the session reads as absent, and a second `destroy` changes nothing |
| `SessionStore.ClearExpiredInvisibleToGet` | back/src/lib/sessionStorage.ts:50-79 | a sweep changes no answer of `get` at the same instant |
| `SessionStore.ClearExpiredIdempotent` | back/src/lib/sessionStorage.ts:50-53 | a second sweep at the same instant removes nothing |
| `SessionStore.SweeperInvisibleToGet` | back/src/lib/sessionStorage.ts:48-62 | however many times the session sweeper fires (until it fails), no firing at or before `now` changes what `get` answers at `now` |
| `Strings.ContainsIffOccurs` | back/src/user.ts:42-44 | `includes` holds exactly when the needle occurs at some position of the message |
| `Users.ClassifyInsertError` | back/src/user.ts:39-49 | a failed insert is a 409 exactly when its SQLSTATE is 23000 and its message names `users.Username` or `users.Email`; the username message wins when both are named; every other error is `[500, err.name]` |
| `Users.DuplicateUsernameExample` | back/src/user.ts:41-43 | a MySQL duplicate-entry message for the `users.Username` key is classified as a taken username |
| `Users.RegisterUser` | back/src/user.ts:29-56 | a failed insert leaves the table and rejects with the classified error; a successful one resolves with the user carrying the insert id, the given names, the creation time and the default bio, and stores one new row holding the password digest, not the password |
| `Users.GetUserById` | back/src/user.ts:61-78 | a query error rejects with 500; otherwise the lookup rejects with `[404, "User not found."]` exactly when no row has the id; a found user carries the requested id and the profile of a row with that id |
| `Users.ValidateLogin` | back/src/user.ts:80-102 | rejects exactly on a query error; an unknown username resolves with `None`; an id is returned only for a row with that username whose digest verifies the password |
| `Users.RegisterThenGetUser` | back/src/user.ts:52-74 | after registering under a new id, looking that id up returns the user registration resolved with |
| `Users.ValidateLoginFirstMatch` | back/src/user.ts:86-97 | when the query succeeds and some row has the username, the first such row decides: the login resolves with its id exactly when its digest verifies the password, and with `None` otherwise |
| `Users.RegisterThenValidateLogin` | back/src/user.ts:34-97 | after registering under a new username, logging in with the same password returns the new id |
| `Users.RegisterThenWrongPassword` | back/src/user.ts:90-97 | under tamper resistance, logging in to a just-registered username with another password returns `None` |
| `UserRoutes.Remember` | back/src/userRoutes.ts:95-105 | a token is issued exactly when the body asks to be remembered; the new tokens table and the returned triple are then exactly those of `setToken` for that user at the request's clock with the drawn ids and salt; the users table is untouched |
| `UserRoutes.NewAccount` | back/src/userRoutes.ts:26-57 | missing or empty username, email or password gives 400 "Fill in required fields." with nothing changed; otherwise a password over 72 characters gives 400 with nothing changed; otherwise registration runs and the status is never 400; a failed insert answers with the classified rejection's status and reason; 200 happens exactly when the insert succeeds, and then the session is the request's session with only its user id set to the new id, the tokens table and the issued token are exactly what `Remember` does for the new id (a token exactly when asked for, otherwise the table unchanged), and, for a request without `rememberMe`, the body is the new user |
| `UserRoutes.Login` | back/src/userRoutes.ts:59-109 | a signed-in session is answered exactly as `getUserById` settles: 200 with the user it returned, or the rejection's status and reason (404 "User not found." for a deleted row), with the session, tables and tokens untouched; otherwise missing credentials give 400; a failed login query gives 500 with the rejection; an unknown user or wrong password gives 401; credentials that validate to a nonzero id whose profile is found give 200 and the request's session with only its user id set, with the tokens table and issued token exactly what `Remember` does for that id, and, for a request without `rememberMe`, the user as body; a failed profile lookup answers with its rejection's status; a 200 happens only after the credentials validate; every non-200 answer changes nothing |
| `UserRoutes.Hello` | back/src/userRoutes.ts:111-116 | 200 exactly when the session holds a user id, 401 otherwise |
| `UserRoutes.Logout` | back/src/userRoutes.ts:118-127 | 401 with the store untouched when not signed in; otherwise 200 and that session's row is gone; every other row is kept with its values |
| `UserRoutes.LogoutThenHello` | back/src/userRoutes.ts:121-125 | after logout, a later request presenting the same session id is answered 401 by `hello` |
| `UserRoutes.LoginSignedInIgnoresBody` | back/src/userRoutes.ts:63-66 | when the session already holds a user id, the login answer does not depend on the request body |
| `UserRoutes.PasswordLimitBoundary` | back/src/userRoutes.ts:29-33 | the password limit is inclusive: 72 characters reach registration, 73 are refused with 400 |
| `UserRoutes.NewAccountThenLogin` | back/src/userRoutes.ts:35-104 | an account created with a new username and id can sign in from a fresh session with the same credentials, and that session then holds the new id |
| `UserRoutes.LoginTokenValidates` | back/src/userRoutes.ts:95-101 | a remember-me token issued by a successful login, with a new lookup id, validates to the signed-in user until it expires |
| `UserRoutes.NewAccountTokenValidates` | back/src/userRoutes.ts:43-49 | a remember-me token issued when an account is created, with a new lookup id, validates to the new user until it expires |

## Left out

- SQL text, `CREATE TABLE` bootstrapping, the mysql2 pool and its callbacks. The tables are values, and each query is the corresponding selection, upsert or deletion.
- The `setInterval` period (15 minutes) and the timing of firings. A run of the sweeper is the sequence of firings it performs, each with the clock it read and whether the `DELETE` failed.
- bcrypt internals, `uid-safe` randomness, and `JSON.stringify`/`JSON.parse` of the session data. The hasher is abstract. Random ids and salts are parameters. The session data is stored as the value itself.
- Fractional seconds. `Date.now() / 1000` is an integer number of seconds here, so MySQL's rounding into the `INT` columns does not arise.
- SessionStore.ExpirySeconds: floors milliseconds to whole seconds. MySQL rounds the fractional value to the nearest second when it stores it.
- Datastore errors in `validateToken`, `setToken`, `get`, `set` and `destroy`. These only pass the error on to the caller; the model assumes those statements succeed. In the routes, this means the `{"error": err}` answer to a failed `setToken` is not modelled.
- The ordering of `destroy`'s callback, which runs before the delete completes and may run twice on error. This is callback plumbing.
- The remember-cookie branch of `login` (back/src/userRoutes.ts:69-78). It changes neither the response nor any table, because its branches are empty. It can still raise an unhandled promise rejection: `validateToken` is called with the secret `undefined` and without a `.catch`. So `bcrypt.compare` on a live row, or a query error, rejects with no handler. That rejection is not modelled. The cookie plumbing around `setToken` is not modelled either: the handlers return the issued triple instead. Three things in that plumbing contradict the token design and are recorded here rather than corrected. The cookie is read as `x-remember` but set as `x-remember-me`. `validateToken` is called with one argument instead of two. The cookie value carries only the lookup id, and the secret is passed as its `maxAge` (back/src/userRoutes.ts:45-46 and 97-98).
- UserRoutes.NewAccount: for a request with `rememberMe`, the model answers 200 with the new user as body. The source passes the plaintext secret as the cookie's `maxAge` (back/src/userRoutes.ts:46). A `maxAge` that is not a number makes Express's `res.cookie` throw (its expiry date becomes invalid), so `res.json(user)` at line 49 is not reached. The `.catch` at line 50 answers instead: status 200, an `{"error": …}` body, and no cookie. The session and the stored token row are as modelled. This depends on library code outside this model, so the answer to such a request is not modelled.
- UserRoutes.Login: the same applies to a successful login with `rememberMe` (back/src/userRoutes.ts:97-102). The model answers with the user, where the source answers `{"error": …}` with no cookie; the session and the stored token row are as modelled.
- Request body types. The fields of the request body are strings in the model. A truthy JSON value that is not a string is not modelled. For example, a numeric password passes both checks at back/src/userRoutes.ts:29-31, because `undefined > 72` is false, and `bcrypt.hash` then rejects it. An array password is measured by its element count.
- The `.catch(...).then(...)` chain of `newAccount`. After a registration rejection the success handler still runs, throws on the undefined user, and tries to answer twice. The model keeps the first answer, which is the rejection. The session and tables are as modelled, because the throw happens before the session is touched. The final `.catch` at back/src/userRoutes.ts:55 then calls `res.json` on an answer already sent; Express throws there because the headers are already sent, nothing catches it, and no process-level handler is installed, so every failed registration leaves an unhandled promise rejection. That rejection is not modelled.
- Key comparison. Every `WHERE column = ?` is exact string equality here. MySQL compares the `Lookup`, `SessionId` and `Username` columns under the server's default collation, which usually ignores case, so `ALICE` can find the row of `alice` in the database but not in the model. The collation is server configuration.
- The order of rows returned by a `SELECT` without `ORDER BY`. The model takes insertion order.
- Password length. JavaScript's `length` counts UTF-16 code units; the model counts Dafny characters (Unicode scalar values). bcrypt's own 72-byte input limit is not modelled.
- The configurable table and column names of `SessionStorage`. The defaults are assumed.
- The type of `created`. The stored row holds the request's clock in milliseconds (`now * 1000`, the `getTime()` stored at back/src/user.ts:38). `registerUser` resolves with `created` as a `Date` (back/src/user.ts:32), which the JSON answer of `newAccount` serialises as an ISO date string. `getUserById` resolves with the stored milliseconds, a number (back/src/user.ts:73). The model represents both as milliseconds, so `Users.RegisterThenGetUser` equates two values that the source gives different types.
- back/src/db.ts (credential loading, pool creation), back/src/server.ts (Express wiring) and back/src/stationRouter.ts (an interface only). These are not part of this model.

=== FILE: hashing.dfy ===
/** The one-way password/secret hasher the core consumes (bcrypt with cost
    10). Its internals are not modelled: a hasher is a pair of functions, and
    what the core relies on is stated as properties a hasher may have, which
    the lemmas that need them take as hypotheses. */
module Hashing {

  /** The per-call random salt `bcrypt.hash` draws. */
  type Salt = nat

  /** `hash(salt, plain)` is the stored digest; `verify(plain, digest)` is
      `bcrypt.compare`. */
  datatype Hasher = Hasher(hash: (Salt, string) -> string, verify: (string, string) -> bool)

  /** A digest verifies against the secret it was computed from, whatever
      salt was drawn. */
  ghost predicate Sound(h: Hasher)
  {
    forall salt: Salt, plain: string :: h.verify(plain, h.hash(salt, plain))
  }

  /** No other secret verifies against a digest (an assumption about bcrypt,
      not something the model can prove). */
  ghost predicate TamperResistant(h: Hasher)
  {
    forall salt: Salt, plain: string, other: string ::
      other != plain ==> !h.verify(other, h.hash(salt, plain))
  }

  /** A reference hasher (it keeps its input recoverable, so it stands in
      for bcrypt only in reasoning about the model). */
  function Reference(): Hasher
  {
    Hasher((salt: Salt, plain: string) => "$2b$" + plain,
           (plain: string, digest: string) => digest == "$2b$" + plain)
  }

  /** A hasher with both properties exists, so lemmas assuming them are not
      vacuous. */
  lemma ReferenceIsSoundAndTamperResistant()
    ensures Sound(Reference()) && TamperResistant(Reference())
  {
    var h := Reference();
    forall salt: Salt, plain: string, other: string | other != plain
      ensures !h.verify(other, h.hash(salt, plain))
    {
      assert ("$2b$" + other)[4..] == other;
      assert ("$2b$" + plain)[4..] == plain;
    }
  }
}

=== FILE: outcomes.dfy ===
/** The two failure-carrying shapes the model needs: a value that may be
    absent (JavaScript's `null`), and a settled promise that either resolved
    with a value or was rejected with an error. */
module Outcomes {

  /** `null` or a value. */
  datatype Option<+T> = None | Some(value: T)

  /** A promise outcome: `resolve(value)` or `reject(error)`. */
  datatype Result<+R, +E> = Success(value: R) | Failure(error: E)
}

=== FILE: seqs.dfy ===
/** Order-preserving selection over a sequence. A table held as a sequence of
    rows is queried with `SELECT … WHERE p` and swept with `DELETE … WHERE
    NOT p`; both are `Filter` with the appropriate predicate. */
module Seqs {

  /** The elements of `s` satisfying `keep`, in their original order. */
  function Filter<T(==,!new)>(s: seq<T>, keep: T -> bool): (r: seq<T>)
    ensures |r| <= |s|
    ensures forall x :: x in r <==> x in s && keep(x)
  {
    if |s| == 0 then []
    else if keep(s[0]) then [s[0]] + Filter(s[1..], keep)
    else Filter(s[1..], keep)
  }

  /** Filtering distributes over concatenation: the survivors of `a` still
      precede the survivors of `b`, which is what "order is preserved" means. */
  lemma {:induction false} FilterConcat<T(!new)>(a: seq<T>, b: seq<T>, keep: T -> bool)
    ensures Filter(a + b, keep) == Filter(a, keep) + Filter(b, keep)
  {
    if |a| == 0 {
      assert a + b == b;
    } else {
      assert (a + b)[0] == a[0];
      assert (a + b)[1..] == a[1..] + b;
      FilterConcat(a[1..], b, keep);
    }
  }

  /** Nothing kept: the selection is empty. */
  lemma FilterNoneKept<T(!new)>(s: seq<T>, keep: T -> bool)
    requires forall x :: x in s ==> !keep(x)
    ensures Filter(s, keep) == []
  {
  }

  /** Everything kept: the selection is the whole sequence. */
  lemma {:induction false} FilterAllKept<T(!new)>(s: seq<T>, keep: T -> bool)
    requires forall x :: x in s ==> keep(x)
    ensures Filter(s, keep) == s
  {
    if |s| > 0 {
      assert s[0] in s;
      assert forall x :: x in s[1..] ==> x in s;
      FilterAllKept(s[1..], keep);
      assert [s[0]] + s[1..] == s;
    }
  }

  /** Selecting twice with the same predicate selects nothing more. */
  lemma FilterIdempotent<T(!new)>(s: seq<T>, keep: T -> bool)
    ensures Filter(Filter(s, keep), keep) == Filter(s, keep)
  {
    FilterAllKept(Filter(s, keep), keep);
  }

  /** Two selections may be applied in either order. */
  lemma {:induction false} FilterCommutes<T(!new)>(s: seq<T>, p: T -> bool, q: T -> bool)
    ensures Filter(Filter(s, p), q) == Filter(Filter(s, q), p)
  {
    if |s| > 0 {
      FilterCommutes(s[1..], p, q);
    }
  }

  /** When the first element is kept, it heads the selection. */
  lemma FilterHead<T(!new)>(s: seq<T>, keep: T -> bool)
    requires |s| > 0 && keep(s[0])
    ensures Filter(s, keep) == [s[0]] + Filter(s[1..], keep)
  {
  }
}

=== FILE: session_store.dfy ===
/** The session store (`SessionStorage`) behind the session middleware: the
    `sessions` table as a map from session id to expiry and data. Time is
    integer epoch seconds; the session data is kept as the value itself
    (serialising it to JSON and back is taken to be the identity). */
module SessionStore {
  import opened Outcomes
  import opened SweepTimer

  /** The fields of the session cookie `set` reads, in milliseconds since
      the epoch: `_expires` and `expires`; `None` is `null`. */
  datatype Cookie = Cookie(underscoreExpires: Option<nat>, expires: Option<nat>)

  /** A session: its cookie and the signed-in user id the routes keep on it. */
  datatype Session = Session(cookie: Cookie, userId: Option<int>)

  datatype Row = Row(expires: int, data: Session)

  /** The `sessions` table; the session id is its primary key. */
  type Store = map<string, Row>

  /** The instant `set` derives: `_expires` when present, otherwise
      `expires`, and `new Date(null)` (the epoch) when neither is. */
  function ExpiryMillis(c: Cookie): nat
  {
    if c.underscoreExpires.Some? then c.underscoreExpires.value
    else if c.expires.Some? then c.expires.value
    else 0
  }

  /** The `Expires` column value: the cookie's expiry instant converted from
      milliseconds to whole seconds. */
  function ExpirySeconds(s: Session): (r: int)
    ensures r * 1000 <= ExpiryMillis(s.cookie) < r * 1000 + 1000
    ensures s.cookie.underscoreExpires.Some? ==> r * 1000 <= s.cookie.underscoreExpires.value
  {
    ExpiryMillis(s.cookie) / 1000
  }

  /** `get(sessionId)` at time `now`: the stored session, or `None` when there
      is no row or the row has expired. Reading never deletes. */
  function Get(store: Store, sessionId: string, now: int): (r: Option<Session>)
    ensures r.Some? <==> sessionId in store && !(store[sessionId].expires < now)
    ensures r.Some? ==> r.value == store[sessionId].data
  {
    if sessionId !in store then None
    else if store[sessionId].expires < now then None
    else Some(store[sessionId].data)
  }

  /** `set(sessionId, session)`: `INSERT … ON DUPLICATE KEY UPDATE`, one
      upsert that leaves exactly one row for the id. */
  function Set(store: Store, sessionId: string, session: Session): (r: Store)
    ensures r.Keys == store.Keys + {sessionId}
    ensures r[sessionId].data == session
    ensures r[sessionId].expires * 1000 <= ExpiryMillis(session.cookie) < r[sessionId].expires * 1000 + 1000
    ensures forall id :: id in store && id != sessionId ==> r[id] == store[id]
  {
    store[sessionId := Row(ExpirySeconds(session), session)]
  }

  /** `destroy(sessionId)`: deletes that row, if any. */
  function Destroy(store: Store, sessionId: string): (r: Store)
    ensures r.Keys == store.Keys - {sessionId}
    ensures forall id :: id in r ==> r[id] == store[id]
  {
    store - {sessionId}
  }

  /** The `clear` closure of `expirationInterval`:
      `DELETE FROM sessions WHERE Expires < now`. */
  function ClearExpired(store: Store, now: int): (r: Store)
    ensures forall id :: id in r <==> id in store && !(store[id].expires < now)
    ensures forall id :: id in r ==> r[id] == store[id]
  {
    map id | id in store && !(store[id].expires < now) :: store[id]
  }

  /** Round trip: a session set is read back until its expiry second, that
      second included. */
  lemma SetThenGet(store: Store, sessionId: string, session: Session, now: int)
    requires now <= ExpirySeconds(session)
    ensures Get(Set(store, sessionId, session), sessionId, now) == Some(session)
  {
  }

  /** After its expiry second a set session reads as absent, though its row
      stays in the table until a sweep. */
  lemma SetThenGetExpired(store: Store, sessionId: string, session: Session, now: int)
    requires now > ExpirySeconds(session)
    ensures Get(Set(store, sessionId, session), sessionId, now) == None
    ensures sessionId in Set(store, sessionId, session)
  {
  }

  /** Upsert: a second `set` for the same id replaces the first entirely. */
  lemma SetTwiceKeepsLast(store: Store, sessionId: string, first: Session, second: Session)
    ensures Set(Set(store, sessionId, first), sessionId, second) == Set(store, sessionId, second)
  {
  }

  /** Setting one id changes no answer for another. */
  lemma SetLeavesOthers(store: Store, sessionId: string, session: Session, other: string, now: int)
    requires other != sessionId
    ensures Get(Set(store, sessionId, session), other, now) == Get(store, other, now)
  {
  }

  /** After `destroy` the session reads as absent, and destroying again
      changes nothing. */
  lemma DestroyThenGet(store: Store, sessionId: string, now: int)
    ensures Get(Destroy(store, sessionId), sessionId, now) == None
    ensures Destroy(Destroy(store, sessionId), sessionId) == Destroy(store, sessionId)
  {
  }

  /** The sweep is invisible to `get` at the same instant: it deletes only
      rows `get` already treats as absent. */
  lemma ClearExpiredInvisibleToGet(store: Store, sessionId: string, now: int)
    ensures Get(ClearExpired(store, now), sessionId, now) == Get(store, sessionId, now)
  {
  }

  /** A second sweep at the same instant removes nothing. */
  lemma ClearExpiredIdempotent(store: Store, now: int)
    ensures ClearExpired(ClearExpired(store, now), now) == ClearExpired(store, now)
  {
  }

  /** The background sweeper, started once and fired on every interval until
      it fails, never changes what `get` answers at a later instant: every
      firing at or before `now` deletes only rows `get` would report absent
      at `now`. */
  lemma {:induction false} SweeperInvisibleToGet(store: Store, firings: seq<Firing>, sessionId: string, now: int)
    requires forall k :: 0 <= k < |firings| ==> firings[k].now <= now
    ensures Get(Run(Active, store, ClearExpired, firings).1, sessionId, now) == Get(store, sessionId, now)
    decreases |firings|
  {
    if |firings| > 0 && !firings[0].failed {
      var swept := ClearExpired(store, firings[0].now);
      assert Get(swept, sessionId, now) == Get(store, sessionId, now);
      SweeperInvisibleToGet(swept, firings[1..], sessionId, now);
    }
  }
}

=== FILE: strings.dfy ===
/** Substring search, as JavaScript's `String.prototype.includes`. */
module Strings {

  /** `haystack.includes(needle)`: `needle` occurs in `haystack` as a
      contiguous block; the empty string occurs everywhere. */
  predicate Contains(haystack: string, needle: string)
    decreases |haystack|
  {
    |needle| <= |haystack| &&
    (haystack[..|needle|] == needle || Contains(haystack[1..], needle))
  }

  /** `needle` occurs in `haystack` starting at position `i`. */
  ghost predicate OccursAt(haystack: string, needle: string, i: int)
  {
    0 <= i && i + |needle| <= |haystack| && haystack[i..i + |needle|] == needle
  }

  /** The scanning definition agrees with the positional one. */
  lemma {:induction false} ContainsIffOccurs(haystack: string, needle: string)
    ensures Contains(haystack, needle) <==> exists i :: OccursAt(haystack, needle, i)
    decreases |haystack|
  {
    if |needle| > |haystack| {
    } else if haystack[..|needle|] == needle {
      assert OccursAt(haystack, needle, 0);
    } else {
      var tail := haystack[1..];
      ContainsIffOccurs(tail, needle);
      if Contains(tail, needle) {
        var i :| OccursAt(tail, needle, i);
        assert haystack[i + 1..i + 1 + |needle|] == tail[i..i + |needle|];
        assert OccursAt(haystack, needle, i + 1);
      }
      if j :| OccursAt(haystack, needle, j) {
        assert j != 0;
        assert tail[j - 1..j - 1 + |needle|] == haystack[j..j + |needle|];
        assert OccursAt(tail, needle, j - 1);
      }
    }
  }
}

=== FILE: sweep_timer.dfy ===
/** The periodic expiry sweep shared by both stores: a timer that runs a
    `DELETE … WHERE Expires < now` once at start-up and then on every interval,
    and that cancels itself the first time the statement fails. */
module SweepTimer {

  datatype Timer = Active | Cancelled

  /** One run of the clear closure: the clock it read and whether the
      datastore reported an error. */
  datatype Firing = Firing(now: int, failed: bool)

  ghost predicate SomeFailure(firings: seq<Firing>)
  {
    exists k :: 0 <= k < |firings| && firings[k].failed
  }

  /** The table after every firing succeeded, each applying `clear`. */
  function ClearAll<T>(table: T, clear: (T, int) -> T, firings: seq<Firing>): T
    decreases |firings|
  {
    if |firings| == 0 then table
    else ClearAll(clear(table, firings[0].now), clear, firings[1..])
  }

  /** Timer and table after a sequence of scheduled firings. A failed
      `DELETE` leaves the table as it was and clears the interval; a
      cancelled timer never fires again. */
  function Run<T>(timer: Timer, table: T, clear: (T, int) -> T, firings: seq<Firing>): (r: (Timer, T))
    ensures timer == Cancelled ==> r == (timer, table)
    ensures r.0 == Cancelled <==> timer == Cancelled || SomeFailure(firings)
    ensures !SomeFailure(firings) ==> r.1 == (if timer == Active then ClearAll(table, clear, firings) else table)
    decreases |firings|
  {
    if timer == Cancelled || |firings| == 0 then (timer, table)
    else if firings[0].failed then (Cancelled, table)
    else
      var r := Run(timer, clear(table, firings[0].now), clear, firings[1..]);
      assert SomeFailure(firings[1..]) ==> SomeFailure(firings) by {
        if SomeFailure(firings[1..]) {
          var k :| 0 <= k < |firings[1..]| && firings[1..][k].failed;
          assert firings[k + 1].failed;
        }
      }
      r
  }

  /** The first failure freezes everything: later firings neither clear
      rows nor restart the timer. */
  lemma {:induction false} FailureStopsSweeping<T>(table: T, clear: (T, int) -> T,
                                                   before: seq<Firing>, failing: Firing, after: seq<Firing>)
    requires !SomeFailure(before) && failing.failed
    ensures Run(Active, table, clear, before + [failing] + after)
         == (Cancelled, ClearAll(table, clear, before))
    decreases |before|
  {
    var all := before + [failing] + after;
    if |before| == 0 {
      assert all[0] == failing;
    } else {
      assert all[0] == before[0];
      assert all[1..] == before[1..] + [failing] + after;
      FailureStopsSweeping(clear(table, before[0].now), clear, before[1..], failing, after);
    }
  }
}

=== FILE: token_vault.dfy ===
/** The remember-me token vault (`PersistentStorage`): the `remember_tokens`
    table as a sequence of rows, issuance with a lookup id and a hashed
    secret, the two-phase lookup-then-verify check, and the expiry sweep.
    Time is integer epoch seconds; the clock, the random draws and the
    hasher are parameters. */
module TokenVault {
  import opened Outcomes
  import opened Seqs
  import opened Hashing
  import opened SweepTimer

  /** Lifetime of a remember-me token: two weeks, in seconds. */
  const EXPIRE_TIME: int := 2 * 7 * 24 * 60 * 60

  /** A `remember_tokens` row. `token` holds the digest of the secret. */
  datatype Row = Row(lookup: string, token: string, userId: int, expires: int)

  /** The table in insertion order. The schema has no unique constraint on
      `Lookup`, so several rows may share one. */
  type Table = seq<Row>

  /** What `setToken` resolves with: `[lookup, plainToken, EXPIRE_TIME]`. */
  datatype Issued = Issued(lookup: string, secret: string, ttl: int)

  /** The row is not yet expired at `now`; a row expiring exactly at `now`
      is still live. */
  predicate Live(row: Row, now: int)
  {
    !(row.expires < now)
  }

  /** No row of `t` uses `lookup`. */
  predicate Fresh(t: Table, lookup: string)
  {
    forall row :: row in t ==> row.lookup != lookup
  }

  predicate UniqueLookups(t: Table)
  {
    forall i, j :: 0 <= i < j < |t| ==> t[i].lookup != t[j].lookup
  }

  /** Row `i` is the first row of `t` carrying `lookup`. */
  predicate FirstMatchAt(t: Table, lookup: string, i: int)
  {
    0 <= i < |t| && t[i].lookup == lookup &&
    forall j :: 0 <= j < i ==> t[j].lookup != lookup
  }

  /** `SELECT … FROM remember_tokens WHERE Lookup = ?`. */
  function Select(t: Table, lookup: string): (res: Table)
    ensures forall row :: row in res <==> row in t && row.lookup == lookup
  {
    Filter(t, (row: Row) => row.lookup == lookup)
  }

  /** `setToken(userId)` at time `now`, with `lookup` and `secret` the two
      random ids drawn and `salt` bcrypt's salt. The new table and the
      resolved triple. */
  function SetToken(t: Table, h: Hasher, userId: int, lookup: string, secret: string,
                    salt: Salt, now: int): (r: (Table, Issued))
    ensures |r.0| == |t| + 1 && r.0[..|t|] == t
    ensures r.0[|t|].lookup == lookup && r.0[|t|].userId == userId
    ensures r.0[|t|].token == h.hash(salt, secret)
    ensures Sound(h) ==> h.verify(secret, r.0[|t|].token)
    ensures r.1 == Issued(lookup, secret, EXPIRE_TIME)
    ensures r.1.ttl == 14 * 24 * 3600 && r.0[|t|].expires - now == r.1.ttl
  {
    var row := Row(lookup, h.hash(salt, secret), userId, now + EXPIRE_TIME);
    (t + [row], Issued(lookup, secret, EXPIRE_TIME))
  }

  /** `validateToken(lookup, secret)` at time `now`: the owner of the token,
      or `None`. Only the first row returned for `lookup` is examined: an
      expired row is rejected before its digest is checked. */
  function ValidateToken(t: Table, h: Hasher, lookup: string, secret: string, now: int): (r: Option<int>)
    ensures r.Some? ==>
      exists row :: row in t && row.lookup == lookup && Live(row, now) &&
                    h.verify(secret, row.token) && row.userId == r.value
    ensures Fresh(t, lookup) ==> r == None
  {
    var res := Select(t, lookup);
    if |res| == 0 then None
    else if res[0].expires < now then None
    else if !h.verify(secret, res[0].token) then None
    else
      assert res[0] in res;
      Some(res[0].userId)
  }

  /** The first matching row decides: accepted exactly when it is live and
      the secret verifies against its digest, and then its owner is the
      answer. An expired first row rejects whatever the secret. */
  lemma ValidateTokenFirstMatch(t: Table, h: Hasher, lookup: string, secret: string, now: int, i: int)
    requires FirstMatchAt(t, lookup, i)
    ensures var r := ValidateToken(t, h, lookup, secret, now);
            (r.Some? <==> Live(t[i], now) && h.verify(secret, t[i].token)) &&
            (r.Some? ==> r.value == t[i].userId)
  {
    SelectFirst(t, lookup, i);
  }

  /** The selection for `lookup` starts with its first matching row. */
  lemma SelectFirst(t: Table, lookup: string, i: int)
    requires FirstMatchAt(t, lookup, i)
    ensures |Select(t, lookup)| > 0 && Select(t, lookup)[0] == t[i]
  {
    var keep := (row: Row) => row.lookup == lookup;
    assert t == t[..i] + t[i..];
    FilterConcat(t[..i], t[i..], keep);
    assert forall x :: x in t[..i] ==> !keep(x);
    FilterNoneKept(t[..i], keep);
    FilterHead(t[i..], keep);
  }

  /** Some row carries `lookup`, so there is a first one. */
  lemma {:induction false} FirstMatchExists(t: Table, lookup: string)
    requires !Fresh(t, lookup)
    ensures exists i :: FirstMatchAt(t, lookup, i)
  {
    if t[0].lookup == lookup {
      assert FirstMatchAt(t, lookup, 0);
    } else {
      assert !Fresh(t[1..], lookup) by {
        var row :| row in t && row.lookup == lookup;
        var k :| 0 <= k < |t| && t[k] == row;
        assert t[1..][k - 1] == row;
      }
      FirstMatchExists(t[1..], lookup);
      var i :| FirstMatchAt(t[1..], lookup, i);
      assert FirstMatchAt(t, lookup, i + 1);
    }
  }

  /** For every lookup id present in the table the answer is decided by its
      first row: accepted exactly when that row is live and the secret
      verifies, and then with that row's owner. Together with the `Fresh`
      clause of `ValidateToken` this covers every lookup id. */
  lemma ValidateTokenPresentLookup(t: Table, h: Hasher, lookup: string, secret: string, now: int)
    requires !Fresh(t, lookup)
    ensures exists i :: (FirstMatchAt(t, lookup, i) &&
              (ValidateToken(t, h, lookup, secret, now).Some? <==> Live(t[i], now) && h.verify(secret, t[i].token)) &&
              (ValidateToken(t, h, lookup, secret, now).Some? ==>
                 ValidateToken(t, h, lookup, secret, now).value == t[i].userId))
  {
    FirstMatchExists(t, lookup);
    var i :| FirstMatchAt(t, lookup, i);
    ValidateTokenFirstMatch(t, h, lookup, secret, now, i);
  }

  /** Round trip: with a lookup id not yet in the table, the issued pair
      validates to its owner at any time up to the stored expiry, that
      instant included. */
  lemma SetThenValidate(t: Table, h: Hasher, userId: int, lookup: string, secret: string,
                        salt: Salt, now: int, later: int)
    requires Sound(h) && Fresh(t, lookup)
    requires later <= now + EXPIRE_TIME
    ensures var (t', tk) := SetToken(t, h, userId, lookup, secret, salt, now);
            ValidateToken(t', h, tk.lookup, tk.secret, later) == Some(userId)
  {
    var (t', tk) := SetToken(t, h, userId, lookup, secret, salt, now);
    assert FirstMatchAt(t', lookup, |t|) by {
      forall j | 0 <= j < |t| ensures t'[j].lookup != lookup {
        assert t'[j] == t[j] && t[j] in t;
      }
    }
    ValidateTokenFirstMatch(t', h, lookup, secret, later, |t|);
  }

  /** Past the stored expiry the issued pair is rejected. */
  lemma SetThenValidateExpired(t: Table, h: Hasher, userId: int, lookup: string, secret: string,
                               salt: Salt, now: int, later: int)
    requires Fresh(t, lookup)
    requires later > now + EXPIRE_TIME
    ensures var (t', tk) := SetToken(t, h, userId, lookup, secret, salt, now);
            ValidateToken(t', h, tk.lookup, tk.secret, later) == None
  {
    var (t', tk) := SetToken(t, h, userId, lookup, secret, salt, now);
    assert FirstMatchAt(t', lookup, |t|) by {
      forall j | 0 <= j < |t| ensures t'[j].lookup != lookup {
        assert t'[j] == t[j] && t[j] in t;
      }
    }
    ValidateTokenFirstMatch(t', h, lookup, secret, later, |t|);
  }

  /** Under the tamper-resistance assumption, no other secret is accepted
      for a freshly issued lookup id, at any time. */
  lemma TamperedSecretRejected(t: Table, h: Hasher, userId: int, lookup: string, secret: string,
                               salt: Salt, now: int, other: string, later: int)
    requires TamperResistant(h) && Fresh(t, lookup)
    requires other != secret
    ensures var (t', tk) := SetToken(t, h, userId, lookup, secret, salt, now);
            ValidateToken(t', h, tk.lookup, other, later) == None
  {
    var (t', tk) := SetToken(t, h, userId, lookup, secret, salt, now);
    assert FirstMatchAt(t', lookup, |t|) by {
      forall j | 0 <= j < |t| ensures t'[j].lookup != lookup {
        assert t'[j] == t[j] && t[j] in t;
      }
    }
    ValidateTokenFirstMatch(t', h, lookup, other, later, |t|);
  }

  /** Issuing with a fresh lookup id keeps lookup ids unique. */
  lemma SetTokenKeepsLookupsUnique(t: Table, h: Hasher, userId: int, lookup: string, secret: string,
                                   salt: Salt, now: int)
    requires UniqueLookups(t) && Fresh(t, lookup)
    ensures UniqueLookups(SetToken(t, h, userId, lookup, secret, salt, now).0)
  {
    var t' := SetToken(t, h, userId, lookup, secret, salt, now).0;
    forall i, j | 0 <= i < j < |t'| ensures t'[i].lookup != t'[j].lookup {
      if j == |t| {
        assert t'[i] == t[i] && t[i] in t;
      } else {
        assert t'[i] == t[i] && t'[j] == t[j];
      }
    }
  }

  /** The `clear` closure of `clearExpiredTokens`:
      `DELETE FROM remember_tokens WHERE Expires < now`. */
  function ClearExpired(t: Table, now: int): (r: Table)
    ensures forall row :: row in r <==> row in t && Live(row, now)
    ensures |r| <= |t|
  {
    Filter(t, (row: Row) => Live(row, now))
  }

  /** The sweep keeps the survivors in their original order. */
  lemma ClearExpiredKeepsOrder(a: Table, b: Table, now: int)
    ensures ClearExpired(a + b, now) == ClearExpired(a, now) + ClearExpired(b, now)
  {
    FilterConcat(a, b, (row: Row) => Live(row, now));
  }

  /** A second sweep at the same instant removes nothing. */
  lemma ClearExpiredIdempotent(t: Table, now: int)
    ensures ClearExpired(ClearExpired(t, now), now) == ClearExpired(t, now)
  {
    FilterIdempotent(t, (row: Row) => Live(row, now));
  }

  /** Selecting after sweeping is sweeping the selection. */
  lemma SelectAfterClear(t: Table, lookup: string, now: int)
    ensures Select(ClearExpired(t, now), lookup) == Filter(Select(t, lookup), (row: Row) => Live(row, now))
  {
    FilterCommutes(t, (row: Row) => Live(row, now), (row: Row) => row.lookup == lookup);
  }

  /** A sweep at `swept` never removes a token the vault accepts at any
      instant `now` from `swept` on: whatever was accepted before is accepted
      after, with the same owner. */
  lemma ClearExpiredKeepsAccepted(t: Table, h: Hasher, lookup: string, secret: string, swept: int, now: int)
    requires swept <= now
    requires ValidateToken(t, h, lookup, secret, now).Some?
    ensures ValidateToken(ClearExpired(t, swept), h, lookup, secret, now)
         == ValidateToken(t, h, lookup, secret, now)
  {
    var res := Select(t, lookup);
    SelectAfterClear(t, lookup, swept);
    FilterHead(res, (row: Row) => Live(row, swept));
  }

  /** With unique lookup ids the sweep is invisible to validation at the
      same instant: every answer is unchanged. */
  lemma ClearExpiredInvisibleWhenUnique(t: Table, h: Hasher, lookup: string, secret: string, now: int)
    requires UniqueLookups(t)
    ensures ValidateToken(ClearExpired(t, now), h, lookup, secret, now)
         == ValidateToken(t, h, lookup, secret, now)
  {
    var res := Select(t, lookup);
    SelectAfterClear(t, lookup, now);
    if |res| > 0 {
      UniqueSelectAtMostOne(t, lookup);
      assert res == [res[0]];
      if Live(res[0], now) {
        FilterHead(res, (row: Row) => Live(row, now));
      }
    }
  }

  /** With unique lookup ids a selection returns at most one row. */
  lemma {:induction false} UniqueSelectAtMostOne(t: Table, lookup: string)
    requires UniqueLookups(t)
    ensures |Select(t, lookup)| <= 1
  {
    if |t| > 0 {
      assert UniqueLookups(t[1..]);
      UniqueSelectAtMostOne(t[1..], lookup);
      var keep := (row: Row) => row.lookup == lookup;
      if t[0].lookup == lookup {
        assert forall x :: x in t[1..] ==> !keep(x);
        FilterNoneKept(t[1..], keep);
      }
    }
  }

  /** Without unique lookup ids the sweep can change an answer: an expired
      first row hides a live second row with the same lookup id until the
      sweep deletes it. */
  lemma DuplicateLookupSweepRevealsRow()
    ensures var h := Reference();
            var t := [Row("L", h.hash(0, "s"), 1, 5), Row("L", h.hash(0, "s"), 2, 100)];
            ValidateToken(t, h, "L", "s", 10) == None &&
            ValidateToken(ClearExpired(t, 10), h, "L", "s", 10) == Some(2)
  {
    var h := Reference();
    var t := [Row("L", h.hash(0, "s"), 1, 5), Row("L", h.hash(0, "s"), 2, 100)];
    ValidateTokenFirstMatch(t, h, "L", "s", 10, 0);
    var swept := ClearExpired(t, 10);
    assert swept == [t[1]];
    ValidateTokenFirstMatch(swept, h, "L", "s", 10, 0);
  }

  /** The background sweeper, started once and fired on every interval until
      it fails, never revokes a token the vault accepts at a later instant. */
  lemma {:induction false} SweeperKeepsAccepted(t: Table, firings: seq<Firing>, h: Hasher,
                                                lookup: string, secret: string, now: int)
    requires forall k :: 0 <= k < |firings| ==> firings[k].now <= now
    requires ValidateToken(t, h, lookup, secret, now).Some?
    ensures ValidateToken(Run(Active, t, ClearExpired, firings).1, h, lookup, secret, now)
         == ValidateToken(t, h, lookup, secret, now)
    decreases |firings|
  {
    if |firings| > 0 && !firings[0].failed {
      var swept := ClearExpired(t, firings[0].now);
      ClearExpiredKeepsAccepted(t, h, lookup, secret, firings[0].now, now);
      SweeperKeepsAccepted(swept, firings[1..], h, lookup, secret, now);
    }
  }
}

=== FILE: user_routes.dfy ===
/** The `/auth` route handlers of `UserRoutes` as pure functions: each takes
    the backend state (the `users` and `remember_tokens` tables), the
    request's session and body, and an oracle holding everything the handler
    gets from outside (clock, random draws, datastore outcomes), and yields
    the response, the session, the backend state and the remember-me token
    issued, if any. */
module UserRoutes {
  import opened Outcomes
  import opened Hashing
  import opened Users
  import TokenVault
  import SessionStore

  const MAX_PASSWORD_LENGTH: int := 72
  const FILL_IN_FIELDS: string := "Fill in required fields."
  const PASSWORD_TOO_LONG: string := "Passwords cannot be greater than 72 characters in length."
  const CREDENTIALS_MISSING: string := "Username or password not provided."
  const CREDENTIALS_WRONG: string := "Username or password incorrect."

  /** The JSON request body; `None` is a missing field. */
  datatype Body = Body(username: Option<string>, email: Option<string>, password: Option<string>,
                       rememberMe: bool)

  /** What is sent: a user object, `{"error": …}` in its three shapes, or the
      bare status text of `sendStatus`. */
  datatype Payload =
    | UserJson(user: User)
    | ErrorText(text: string)
    | ErrorReason(reason: Reason)
    | ErrorRejection(rejection: Rejection)
    | StatusText

  datatype Response = Response(status: int, payload: Payload)

  datatype Backend = Backend(users: seq<UserRow>, tokens: TokenVault.Table)

  /** The outside world for one request: the clock in seconds, the bcrypt
      salts, the random lookup id and secret of a remember-me token, and what
      the datastore reports for the insert and for the two login queries. */
  datatype Oracle = Oracle(now: int, passwordSalt: Salt, insert: InsertOutcome,
                           loginFault: Option<DbError>, profileFault: Option<DbError>,
                           tokenLookup: string, tokenSecret: string, tokenSalt: Salt)

  datatype Reply = Reply(response: Response, session: SessionStore.Session, backend: Backend,
                         issued: Option<TokenVault.Issued>)

  /** JavaScript truthiness of an optional string field. */
  predicate Truthy(s: Option<string>)
  {
    s.Some? && s.value != ""
  }

  /** `session.userId` is set (a `0n` id is falsy). */
  predicate SignedIn(session: SessionStore.Session)
  {
    session.userId.Some? && session.userId.value != 0
  }

  predicate HasRequiredFields(body: Body)
  {
    Truthy(body.username) && Truthy(body.email) && Truthy(body.password)
  }

  /** Issue a remember-me token for `userId` when the body asks for one. */
  function Remember(b: Backend, h: Hasher, body: Body, userId: int, o: Oracle): (r: (Backend, Option<TokenVault.Issued>))
    ensures r.0.users == b.users
    ensures r.1.Some? <==> body.rememberMe
    ensures !body.rememberMe ==> r.0 == b
    ensures body.rememberMe ==>
      var (tokens, tk) := TokenVault.SetToken(b.tokens, h, userId, o.tokenLookup, o.tokenSecret, o.tokenSalt, o.now);
      r == (Backend(b.users, tokens), Some(tk))
  {
    if body.rememberMe then
      var (tokens, tk) := TokenVault.SetToken(b.tokens, h, userId, o.tokenLookup, o.tokenSecret, o.tokenSalt, o.now);
      (Backend(b.users, tokens), Some(tk))
    else (b, None)
  }

  /** `POST /auth/new`. */
  function NewAccount(b: Backend, h: Hasher, session: SessionStore.Session, body: Body, o: Oracle): (r: Reply)
    ensures !HasRequiredFields(body) ==> r == Reply(Response(400, ErrorText(FILL_IN_FIELDS)), session, b, None)
    ensures HasRequiredFields(body) && |body.password.value| > MAX_PASSWORD_LENGTH ==>
      r == Reply(Response(400, ErrorText(PASSWORD_TOO_LONG)), session, b, None)
    ensures HasRequiredFields(body) && |body.password.value| <= MAX_PASSWORD_LENGTH ==>
      r.response.status != 400 &&
      r.backend.users == RegisterUser(b.users, h, o.passwordSalt, body.username.value, body.email.value,
                                      body.password.value, o.now * 1000, o.insert).0
    ensures r.response.status == 200 <==>
      HasRequiredFields(body) && |body.password.value| <= MAX_PASSWORD_LENGTH && o.insert.Inserted?
    ensures r.response.status == 200 ==>
      r.session == session.(userId := Some(o.insert.insertId)) &&
      r.response.payload == UserJson(User(Some(o.insert.insertId), body.username.value, body.email.value,
                                          o.now * 1000, DEFAULT_BIO))
    ensures HasRequiredFields(body) && |body.password.value| <= MAX_PASSWORD_LENGTH && o.insert.InsertFailed? ==>
      r.response == Response(ClassifyInsertError(o.insert.error).status, ErrorReason(ClassifyInsertError(o.insert.error).reason))
    ensures r.response.status != 200 ==> r.session == session && r.issued.None? && r.backend.tokens == b.tokens
    ensures r.issued.Some? <==> r.response.status == 200 && body.rememberMe
    ensures r.response.status == 200 ==>
      (r.backend, r.issued)
      == Remember(Backend(RegisterUser(b.users, h, o.passwordSalt, body.username.value, body.email.value,
                                       body.password.value, o.now * 1000, o.insert).0, b.tokens),
                  h, body, o.insert.insertId, o)
  {
    if !HasRequiredFields(body) then
      Reply(Response(400, ErrorText(FILL_IN_FIELDS)), session, b, None)
    else if |body.password.value| > MAX_PASSWORD_LENGTH then
      Reply(Response(400, ErrorText(PASSWORD_TOO_LONG)), session, b, None)
    else
      var (users, res) := RegisterUser(b.users, h, o.passwordSalt, body.username.value, body.email.value,
                                       body.password.value, o.now * 1000, o.insert);
      match res
      case Failure(rej) =>
        Reply(Response(rej.status, ErrorReason(rej.reason)), session, Backend(users, b.tokens), None)
      case Success(u) =>
        var (b', tk) := Remember(Backend(users, b.tokens), h, body, u.id.value, o);
        Reply(Response(200, UserJson(u)), session.(userId := u.id), b', tk)
  }

  /** `POST /auth/login`. The remember-cookie branch of the source changes
      neither the response nor any table, so it does not appear. */
  function Login(b: Backend, h: Hasher, session: SessionStore.Session, body: Body, o: Oracle): (r: Reply)
    ensures r.backend.users == b.users
    ensures SignedIn(session) ==>
      r.response == match GetUserById(b.users, session.userId.value, o.profileFault)
                    case Success(u) => Response(200, UserJson(u))
                    case Failure(rej) => Response(rej.status, ErrorReason(rej.reason))
    ensures !SignedIn(session) && r.response.status == 200 ==>
      r.session.userId.Some? && r.session == session.(userId := r.session.userId) &&
      (r.backend, r.issued) == Remember(b, h, body, r.session.userId.value, o)
    ensures SignedIn(session) ==>
      r.session == session && r.backend == b && r.issued.None? &&
      (r.response.status == 200 <==> GetUserById(b.users, session.userId.value, o.profileFault).Success?) &&
      (r.response.status == 200 ==> r.response.payload.UserJson? && r.response.payload.user.id == session.userId)
    ensures !SignedIn(session) && !(Truthy(body.username) && Truthy(body.password)) ==>
      r == Reply(Response(400, ErrorText(CREDENTIALS_MISSING)), session, b, None)
    ensures !SignedIn(session) && Truthy(body.username) && Truthy(body.password) &&
            ValidateLogin(b.users, h, body.username.value, body.password.value, o.loginFault) in {Success(None), Success(Some(0))} ==>
      r == Reply(Response(401, ErrorText(CREDENTIALS_WRONG)), session, b, None)
    ensures !SignedIn(session) && r.response.status == 200 ==>
      Truthy(body.username) && Truthy(body.password) &&
      ValidateLogin(b.users, h, body.username.value, body.password.value, o.loginFault) == Success(r.session.userId) &&
      SignedIn(r.session) &&
      r.response.payload.UserJson? && r.response.payload.user.id == r.session.userId
    ensures forall id: int ::
      !SignedIn(session) && Truthy(body.username) && Truthy(body.password) &&
      ValidateLogin(b.users, h, body.username.value, body.password.value, o.loginFault) == Success(Some(id)) &&
      id != 0 && GetUserById(b.users, id, o.profileFault).Success? ==>
        r.response == Response(200, UserJson(GetUserById(b.users, id, o.profileFault).value)) &&
        r.session.userId == Some(id)
    ensures !SignedIn(session) && Truthy(body.username) && Truthy(body.password) && o.loginFault.Some? ==>
      r.response == Response(500, ErrorRejection(Rejection(500, Cause(o.loginFault.value))))
    ensures forall id: int ::
      !SignedIn(session) && Truthy(body.username) && Truthy(body.password) &&
      ValidateLogin(b.users, h, body.username.value, body.password.value, o.loginFault) == Success(Some(id)) &&
      id != 0 && GetUserById(b.users, id, o.profileFault).Failure? ==>
        var rej := GetUserById(b.users, id, o.profileFault).error;
        r.response == Response(rej.status, ErrorReason(rej.reason))
    ensures r.response.status != 200 ==> r.session == session && r.backend == b && r.issued.None?
    ensures r.issued.Some? ==> !SignedIn(session) && body.rememberMe && r.response.status == 200
  {
    if SignedIn(session) then
      match GetUserById(b.users, session.userId.value, o.profileFault)
      case Success(u) => Reply(Response(200, UserJson(u)), session, b, None)
      case Failure(rej) => Reply(Response(rej.status, ErrorReason(rej.reason)), session, b, None)
    else if !Truthy(body.username) || !Truthy(body.password) then
      Reply(Response(400, ErrorText(CREDENTIALS_MISSING)), session, b, None)
    else
      match ValidateLogin(b.users, h, body.username.value, body.password.value, o.loginFault)
      case Failure(rej) => Reply(Response(rej.status, ErrorRejection(rej)), session, b, None)
      case Success(found) =>
        if found.None? || found.value == 0 then
          Reply(Response(401, ErrorText(CREDENTIALS_WRONG)), session, b, None)
        else
          match GetUserById(b.users, found.value, o.profileFault)
          case Failure(rej) => Reply(Response(rej.status, ErrorReason(rej.reason)), session, b, None)
          case Success(u) =>
            var (b', tk) := Remember(b, h, body, u.id.value, o);
            Reply(Response(200, UserJson(u)), session.(userId := u.id), b', tk)
  }

  /** `GET /auth/hello`. */
  function Hello(session: SessionStore.Session): (r: Response)
    ensures r.payload == StatusText
    ensures r.status == 200 <==> SignedIn(session)
    ensures r.status == 401 <==> !SignedIn(session)
  {
    if !SignedIn(session) then Response(401, StatusText) else Response(200, StatusText)
  }

  /** `DELETE /auth/logout` for the session `sessionId`: destroys its row in
      the session store when signed in. */
  function Logout(store: SessionStore.Store, sessionId: string, session: SessionStore.Session): (r: (Response, SessionStore.Store))
    ensures r.0.payload == StatusText
    ensures !SignedIn(session) ==> r == (Response(401, StatusText), store)
    ensures SignedIn(session) ==> r.0.status == 200 && sessionId !in r.1 && r.1.Keys == store.Keys - {sessionId}
    ensures forall id :: id in r.1 ==> r.1[id] == store[id]
  {
    if !SignedIn(session) then (Response(401, StatusText), store)
    else (Response(200, StatusText), SessionStore.Destroy(store, sessionId))
  }

  /** How the session middleware resumes a request's session from the store:
      the stored session, or a new one without a user. */
  function Resume(store: SessionStore.Store, sessionId: string, cookie: SessionStore.Cookie, now: int): SessionStore.Session
  {
    match SessionStore.Get(store, sessionId, now)
    case Some(s) => s
    case None => SessionStore.Session(cookie, None)
  }

  /** After a logout, a later request presenting the same session id is no
      longer signed in. */
  lemma LogoutThenHello(store: SessionStore.Store, sessionId: string, session: SessionStore.Session,
                        cookie: SessionStore.Cookie, now: int)
    requires SignedIn(session)
    ensures var (_, store') := Logout(store, sessionId, session);
            Hello(Resume(store', sessionId, cookie, now)).status == 401
  {
  }

  /** A signed-in login answers from the session alone: the body is ignored. */
  lemma LoginSignedInIgnoresBody(b: Backend, h: Hasher, session: SessionStore.Session, body: Body,
                                 other: Body, o: Oracle)
    requires SignedIn(session)
    ensures Login(b, h, session, body, o) == Login(b, h, session, other, o)
  {
  }

  /** The password limit is inclusive: a 72-character password reaches
      registration, a 73-character one does not. */
  lemma PasswordLimitBoundary(b: Backend, h: Hasher, session: SessionStore.Session, body: Body, o: Oracle)
    requires HasRequiredFields(body)
    ensures |body.password.value| == 72 ==> NewAccount(b, h, session, body, o).response.status != 400
    ensures |body.password.value| == 73 ==> NewAccount(b, h, session, body, o).response.status == 400
  {
  }

  /** End to end: an account created with a new username and id can then
      sign in from a fresh session with the same credentials, and the session
      ends up holding the new id. */
  lemma NewAccountThenLogin(b: Backend, h: Hasher, s1: SessionStore.Session, s2: SessionStore.Session,
                            body: Body, o1: Oracle, o2: Oracle)
    requires Sound(h)
    requires HasRequiredFields(body) && |body.password.value| <= MAX_PASSWORD_LENGTH
    requires o1.insert.Inserted? && o1.insert.insertId != 0
    requires UsernameFree(b.users, body.username.value) && IdFree(b.users, o1.insert.insertId)
    requires !SignedIn(s2) && o2.loginFault.None? && o2.profileFault.None?
    ensures var r1 := NewAccount(b, h, s1, body, o1);
            var r2 := Login(r1.backend, h, s2, body, o2);
            r1.response.status == 200 && r2.response.status == 200 &&
            r2.session.userId == Some(o1.insert.insertId)
  {
    var id := o1.insert.insertId;
    var username := body.username.value;
    var pwd := body.password.value;
    RegisterThenValidateLogin(b.users, h, o1.passwordSalt, username, body.email.value, pwd, o1.now * 1000, id);
    RegisterThenGetUser(b.users, h, o1.passwordSalt, username, body.email.value, pwd, o1.now * 1000, id);
  }

  /** A remember-me token issued by a successful login validates to the
      signed-in user until it expires, provided its lookup id was new. */
  lemma LoginTokenValidates(b: Backend, h: Hasher, session: SessionStore.Session, body: Body, o: Oracle, later: int)
    requires Sound(h) && TokenVault.Fresh(b.tokens, o.tokenLookup)
    requires later <= o.now + TokenVault.EXPIRE_TIME
    ensures var r := Login(b, h, session, body, o);
            r.issued.Some? ==>
              TokenVault.ValidateToken(r.backend.tokens, h, r.issued.value.lookup, r.issued.value.secret, later)
              == r.session.userId
  {
    var r := Login(b, h, session, body, o);
    if r.issued.Some? {
      var u := r.response.payload.user;
      TokenVault.SetThenValidate(b.tokens, h, u.id.value, o.tokenLookup, o.tokenSecret, o.tokenSalt, o.now, later);
    }
  }

  /** A remember-me token issued when an account is created validates to the
      new user until it expires, provided its lookup id was new. */
  lemma NewAccountTokenValidates(b: Backend, h: Hasher, session: SessionStore.Session, body: Body, o: Oracle, later: int)
    requires Sound(h) && TokenVault.Fresh(b.tokens, o.tokenLookup)
    requires later <= o.now + TokenVault.EXPIRE_TIME
    ensures var r := NewAccount(b, h, session, body, o);
            r.issued.Some? ==>
              TokenVault.ValidateToken(r.backend.tokens, h, r.issued.value.lookup, r.issued.value.secret, later)
              == r.session.userId
  {
    var r := NewAccount(b, h, session, body, o);
    if r.issued.Some? {
      TokenVault.SetThenValidate(b.tokens, h, o.insert.insertId, o.tokenLookup, o.tokenSecret, o.tokenSalt, o.now, later);
    }
  }
}

=== FILE: users.dfy ===
/** The account logic of `UserController`: registration with duplicate-key
    classification, lookup by id, and password login, over the `users` table
    held as a sequence of rows. What the datastore reports for each statement
    (an insert id, or an error) is a parameter. */
module Users {
  import opened Outcomes
  import opened Seqs
  import opened Strings
  import opened Hashing

  const DEFAULT_BIO: string := "This user hasn't set a bio."
  const DUPLICATE_KEY_STATE: string := "23000"

  /** A datastore error: its SQLSTATE, message and name. */
  datatype DbError = DbError(sqlState: string, message: string, name: string)

  /** A `users` row; `password` holds the bcrypt digest. */
  datatype UserRow = UserRow(id: int, username: string, email: string, created: int,
                             password: string, bio: string)

  /** The `User` object handed to the routes. */
  datatype User = User(id: Option<int>, username: string, email: string, created: int, bio: string)

  /** The second element of a rejection array: a message or the error itself. */
  datatype Reason = Text(text: string) | Cause(error: DbError)

  /** A rejection `[status, reason]`. */
  datatype Rejection = Rejection(status: int, reason: Reason)

  /** What the `INSERT INTO users` statement reported. */
  datatype InsertOutcome = Inserted(insertId: int) | InsertFailed(error: DbError)

  /** The duplicate-key error names the `Username` unique key. */
  predicate NamesUsernameKey(err: DbError)
  {
    err.sqlState == DUPLICATE_KEY_STATE && Contains(err.message, "users.Username")
  }

  /** The duplicate-key error names the `Email` unique key. */
  predicate NamesEmailKey(err: DbError)
  {
    err.sqlState == DUPLICATE_KEY_STATE && Contains(err.message, "users.Email")
  }

  /** How `registerUser` rejects a failed insert: 409 for a duplicate
      username (tested first) or email, 500 with the error's name otherwise. */
  function ClassifyInsertError(err: DbError): (r: Rejection)
    ensures r.status == 409 <==> NamesUsernameKey(err) || NamesEmailKey(err)
    ensures r.status == 409 || r == Rejection(500, Text(err.name))
    ensures NamesUsernameKey(err) ==> r.reason == Text("Username is already registered.")
    ensures !NamesUsernameKey(err) && NamesEmailKey(err) ==> r.reason == Text("Email is already registered.")
  {
    if err.sqlState == DUPLICATE_KEY_STATE && Contains(err.message, "users.Username") then
      Rejection(409, Text("Username is already registered."))
    else if err.sqlState == DUPLICATE_KEY_STATE && Contains(err.message, "users.Email") then
      Rejection(409, Text("Email is already registered."))
    else
      Rejection(500, Text(err.name))
  }

  /** `registerUser(username, email, pwd)` created at `created`, with `salt`
      the salt bcrypt draws and `outcome` what the insert reported. The
      table afterwards and the promise's outcome. */
  function RegisterUser(users: seq<UserRow>, h: Hasher, salt: Salt, username: string, email: string,
                        pwd: string, created: int, outcome: InsertOutcome): (r: (seq<UserRow>, Result<User, Rejection>))
    ensures outcome.InsertFailed? ==> r.0 == users && r.1 == Failure(ClassifyInsertError(outcome.error))
    ensures outcome.Inserted? ==>
      && r.1.Success?
      && r.1.value == User(Some(outcome.insertId), username, email, created, DEFAULT_BIO)
      && |r.0| == |users| + 1 && r.0[..|users|] == users
      && r.0[|users|].id == outcome.insertId && r.0[|users|].username == username
      && r.0[|users|].password == h.hash(salt, pwd)
  {
    match outcome
    case InsertFailed(err) => (users, Failure(ClassifyInsertError(err)))
    case Inserted(id) =>
      var row := UserRow(id, username, email, created, h.hash(salt, pwd), DEFAULT_BIO);
      (users + [row], Success(User(Some(id), username, email, created, DEFAULT_BIO)))
  }

  /** `SELECT … FROM users WHERE Id = ?`. */
  function SelectById(users: seq<UserRow>, id: int): (res: seq<UserRow>)
    ensures forall row :: row in res <==> row in users && row.id == id
  {
    Filter(users, (row: UserRow) => row.id == id)
  }

  /** `SELECT Id, Password FROM users WHERE Username = ?`. */
  function SelectByUsername(users: seq<UserRow>, username: string): (res: seq<UserRow>)
    ensures forall row :: row in res <==> row in users && row.username == username
  {
    Filter(users, (row: UserRow) => row.username == username)
  }

  /** `getUserById(id)`, with `fault` the error the query may report. The
      user carries the requested id and the profile of a row with that id. */
  function GetUserById(users: seq<UserRow>, id: int, fault: Option<DbError>): (r: Result<User, Rejection>)
    ensures fault.Some? ==> r == Failure(Rejection(500, Cause(fault.value)))
    ensures fault.None? ==>
      (r.Failure? <==> forall row :: row in users ==> row.id != id) &&
      (r.Failure? ==> r.error == Rejection(404, Text("User not found.")))
    ensures r.Success? ==>
      r.value.id == Some(id) &&
      exists row :: row in users && row.id == id && r.value == User(Some(id), row.username, row.email, row.created, row.bio)
  {
    if fault.Some? then Failure(Rejection(500, Cause(fault.value)))
    else
      var res := SelectById(users, id);
      if |res| == 0 then Failure(Rejection(404, Text("User not found.")))
      else
        assert res[0] in res;
        Success(User(Some(id), res[0].username, res[0].email, res[0].created, res[0].bio))
  }

  /** `validateLogin(username, password)`, with `fault` the error the query
      may report: resolves with the id of the user, or with `None` for an
      unknown username or a wrong password. */
  function ValidateLogin(users: seq<UserRow>, h: Hasher, username: string, password: string,
                         fault: Option<DbError>): (r: Result<Option<int>, Rejection>)
    ensures fault.Some? <==> r.Failure?
    ensures fault.Some? ==> r == Failure(Rejection(500, Cause(fault.value)))
    ensures fault.None? && (forall row :: row in users ==> row.username != username) ==> r == Success(None)
    ensures r.Success? && r.value.Some? ==>
      exists row :: row in users && row.username == username && h.verify(password, row.password) && row.id == r.value.value
  {
    if fault.Some? then Failure(Rejection(500, Cause(fault.value)))
    else
      var res := SelectByUsername(users, username);
      if |res| == 0 then Success(None)
      else if h.verify(password, res[0].password) then
        assert res[0] in res;
        Success(Some(res[0].id))
      else Success(None)
  }

  /** Row `i` is the first row of `users` with `username`. */
  predicate FirstUserAt(users: seq<UserRow>, username: string, i: int)
  {
    0 <= i < |users| && users[i].username == username &&
    forall j :: 0 <= j < i ==> users[j].username != username
  }

  /** The login query's first row is the first row with the username. */
  lemma SelectByUsernameFirst(users: seq<UserRow>, username: string, i: int)
    requires FirstUserAt(users, username, i)
    ensures |SelectByUsername(users, username)| > 0 && SelectByUsername(users, username)[0] == users[i]
  {
    var keep := (row: UserRow) => row.username == username;
    assert users == users[..i] + users[i..];
    FilterConcat(users[..i], users[i..], keep);
    assert forall x :: x in users[..i] ==> !keep(x);
    FilterNoneKept(users[..i], keep);
    FilterHead(users[i..], keep);
  }

  /** The three-way outcome of a login that reaches the table: the first row
      with the username decides, resolving with its id exactly when its
      digest verifies the password, and with `None` otherwise. */
  lemma ValidateLoginFirstMatch(users: seq<UserRow>, h: Hasher, username: string, password: string, i: int)
    requires FirstUserAt(users, username, i)
    ensures ValidateLogin(users, h, username, password, None)
         == Success(if h.verify(password, users[i].password) then Some(users[i].id) else None)
  {
    SelectByUsernameFirst(users, username, i);
  }

  /** A username is taken by no row. */
  predicate UsernameFree(users: seq<UserRow>, username: string)
  {
    forall row :: row in users ==> row.username != username
  }

  /** An id is taken by no row. */
  predicate IdFree(users: seq<UserRow>, id: int)
  {
    forall row :: row in users ==> row.id != id
  }

  /** Registration followed by a lookup of the new id returns the user that
      registration resolved with. */
  lemma RegisterThenGetUser(users: seq<UserRow>, h: Hasher, salt: Salt, username: string, email: string,
                            pwd: string, created: int, id: int)
    requires IdFree(users, id)
    ensures var (users', res) := RegisterUser(users, h, salt, username, email, pwd, created, Inserted(id));
            GetUserById(users', id, None) == res
  {
    var (users', res) := RegisterUser(users, h, salt, username, email, pwd, created, Inserted(id));
    var keep := (row: UserRow) => row.id == id;
    assert users' == users + [users'[|users|]];
    FilterConcat(users, [users'[|users|]], keep);
    FilterNoneKept(users, keep);
  }

  /** Registration followed by a login with the same credentials resolves
      with the new id, for a username not yet taken. */
  lemma RegisterThenValidateLogin(users: seq<UserRow>, h: Hasher, salt: Salt, username: string, email: string,
                                  pwd: string, created: int, id: int)
    requires Sound(h) && UsernameFree(users, username)
    ensures var (users', _) := RegisterUser(users, h, salt, username, email, pwd, created, Inserted(id));
            ValidateLogin(users', h, username, pwd, None) == Success(Some(id))
  {
    var (users', _) := RegisterUser(users, h, salt, username, email, pwd, created, Inserted(id));
    var keep := (row: UserRow) => row.username == username;
    assert users' == users + [users'[|users|]];
    FilterConcat(users, [users'[|users|]], keep);
    FilterNoneKept(users, keep);
  }

  /** Under the tamper-resistance assumption a login with another password
      for a just-registered username resolves with `None`. */
  lemma RegisterThenWrongPassword(users: seq<UserRow>, h: Hasher, salt: Salt, username: string, email: string,
                                  pwd: string, created: int, id: int, other: string)
    requires TamperResistant(h) && UsernameFree(users, username) && other != pwd
    ensures var (users', _) := RegisterUser(users, h, salt, username, email, pwd, created, Inserted(id));
            ValidateLogin(users', h, username, other, None) == Success(None)
  {
    var (users', _) := RegisterUser(users, h, salt, username, email, pwd, created, Inserted(id));
    var keep := (row: UserRow) => row.username == username;
    assert users' == users + [users'[|users|]];
    FilterConcat(users, [users'[|users|]], keep);
    FilterNoneKept(users, keep);
  }

  /** A MySQL duplicate-entry message for the `Username` key is classified
      as a taken username. */
  lemma DuplicateUsernameExample()
    ensures ClassifyInsertError(DbError("23000", "Duplicate entry 'ada' for key 'users.Username'", "Error"))
         == Rejection(409, Text("Username is already registered."))
  {
    var msg := "Duplicate entry 'ada' for key 'users.Username'";
    assert msg[31..45] == "users.Username";
    assert OccursAt(msg, "users.Username", 31);
    ContainsIffOccurs(msg, "users.Username");
  }
}
